=== FILE: README.md ===
# Workout feed: filter-and-sort derivation

This project models the one piece of logic in the workout-feed page (`src/App.tsx`):
the derivation that turns the stored item list into the list the page shows. On every
render the page copies the stored items, drops each item whose level holder (`data`)
is `null`, and sorts the rest in descending order with a comparator chosen by the
current sort key:

- `created`: meant to put the newest item first, but as written the comparator returns NaN
  for every pair, which the engines read as a tie, so their stable sorts keep the fetched
  order; ECMAScript itself leaves the order implementation-defined (see Findings);
- `kudosFull`: most kudos first, by the length of the kudos array;
- `data.level`: highest rank first, with ranks from a fixed table
  (`advanced` 3, `medium` 2, `newbie` 1, `undefined` 0).

The page then shows a loading placeholder if the derived list is falsy, and the list
otherwise.

Files and modules:

- `wrappers.dfy`, module `Wrappers`: `Option`. `None` stands for a `null` or `undefined` value.
- `items.dfy`, module `Items`: `Item`, `Level`, `LevelHolder`, `Timestamp`. It also holds the
  rank table `LevelMap`, its lookup `LookupRank`, and the rank of a level, `Rank`.
- `comparators.dfy`, module `Comparators`: the `SortKey` state with its string values. It also holds
  each key's comparator (`Compare`) and the score that comparator orders by (`Score`).
- `sorting.dfy`, module `Sorting`: sortedness by a comparator, and insertion sort as the reference
  sort. It also proves that every sorted permutation of the same items has the same
  sequence of scores.
- `view.dfy`, module `View`: the `data !== null` filter (`Visible`), the derivation with the
  corrected `created` comparator (`SortedItems`), the list the page shows (`PageItems`) and one
  render (`Render`).
- `created_as_written.dfy`, module `CreatedAsWritten`: the `created` comparator as the code
  writes it, the number conversions behind it, and the stable sort it drives (see Findings).
- `examples.dfy`, module `Examples`: the derivation worked out on small feeds.

The comparator convention is the one `Array.prototype.sort` uses: a negative result
puts the first argument first. Sortedness (`Sorting.SortedBy`) is therefore "no
element must come after a later one". `Sorting.SortedIffScoresNonIncreasing` shows this is
the same as "scores never increase down the list".

Items are immutable values. The derivation returns a new sequence, so the stored list
is left as it was, just as the source sorts a spread copy `[...items]`.

Notes on the code:

- The `Loading, wait please` placeholder (src/App.tsx:79) is never shown: `items` starts
  as `[]`, and both branches of line 56 yield an array, which is truthy even when empty
  (`View.Render`, `View.InitialRenderIsEmptyList`).
- Only the key `"undefined"` (a missing label) ranks 0. Any other label finds no rank: the
  lookup gives no number (`undefined`, or an inherited `Object.prototype` member such as
  `constructor`), and the subtraction is NaN (`Items.LookupRank` returns `None`).
- The `Item` interface types `data.level` as `number`, but the rank table is indexed by
  string labels. The model uses the labels.

## Model

| member | source | states |
|---|---|---|
| Items.ParseLabel | src/App.tsx:63-69 | A rank-table key names a level only if it is that level's label; a key that is no level's label names none |
| Items.LabelRoundTrip | src/App.tsx:63-69 | Every level's label parses back to that level |
| Items.LookupRank | src/App.tsx:63-69 | Indexing the rank table gives a rank exactly for the four level labels, always within 0..3; any other key gives no number (`undefined`, or an inherited `Object.prototype` member) |
| Items.Rank | src/App.tsx:63-68 | Every level's rank lies within 0..3 |
| Items.RankFromTable | src/App.tsx:63-69 | A level's rank is what the rank table holds under its label |
| Items.RankOrder | src/App.tsx:64-67 | advanced = 3, medium = 2, newbie = 1, missing label = 0, and no two levels share a rank |
| Items.InstantLexicographic | src/App.tsx:59 | For well-formed timestamps, comparing instants is comparing (seconds, nanoseconds) lexicographically, and equal instants mean equal timestamps |
| Comparators.BranchFor | src/App.tsx:58-62 | A sort-key string selects the branch whose key value it equals under `===`; any string that is no key's value falls into the `data.level` branch |
| Comparators.KeyNameRoundTrip | src/App.tsx:58-62 | Each key's own value selects that key's branch |
| Comparators.Score | src/App.tsx:59-69 | The value each branch compares: a kudos count is at least 0, a rank lies within 0..3, and a well-formed timestamp's instant lies within its second |
| Comparators.Compare | src/App.tsx:58-69 | The comparator of each branch (the `created` branch corrected to compare instants) puts `a` first exactly when `a`'s score exceeds `b`'s, and ties exactly on equal scores |
| Comparators.CompareAntisymmetric | src/App.tsx:60-69 | cmp(a, b) = -cmp(b, a) and cmp(a, a) = 0 for every key |
| Comparators.CompareTotalPreorder | src/App.tsx:60-69 | "Not after" is total and transitive for every key |
| Sorting.Insert | src/App.tsx:57 | Inserting into a sorted list keeps it sorted and adds exactly the one item |
| Sorting.InsertionSort | src/App.tsx:57-71 | The sort's output is a permutation of its input, in comparator order |
| Sorting.SortedIffScoresNonIncreasing | src/App.tsx:58-70 | Sorted by a key's comparator is the same as scores never increasing down the list |
| Sorting.SortedScoresDetermined | src/App.tsx:57-71 | Any two sorted permutations of the same items have the same score sequence, however ties are broken |
| Sorting.NoTiesDetermineOrder | src/App.tsx:57-71 | When no two items tie, the items have only one sorted order |
| View.Visible | src/App.tsx:57 | The filter keeps exactly the items whose `data` is not null, each as often as in the input, and never lengthens the list |
| View.VisibleKeepsShownFeed | src/App.tsx:57 | A feed with no null `data` passes the filter unchanged |
| View.SortedItems | src/App.tsx:56-72 | The derived list holds exactly the items with non-null `data`, with their counts, sorted by the key's comparator, and is no longer than the stored list |
| View.ChangingKeyKeepsItems | src/App.tsx:56-57 | Changing the sort key reorders the same items; none is added or lost |
| View.SortedItemsScoresDetermined | src/App.tsx:56-72 | Every list a correct sort could derive shows the same key values in the same order |
| View.SortedItemsUnique | src/App.tsx:56-72 | When no two shown items tie on the key, the derived list is the one sorted arrangement of them |
| View.KudosDescending | src/App.tsx:60-61 | Under `kudosFull` the kudos counts never increase down the list |
| View.LevelDescending | src/App.tsx:62-69 | Under `data.level` every listed item has a level and the ranks never increase down the list |
| View.CreatedNewestFirst | src/App.tsx:58-59 | Under `created` (corrected comparator) the instants never increase down the list |
| View.PageItems | src/App.tsx:56-72 | The list the page shows holds exactly the items with non-null `data`, with their counts; under `created` it is those items in their fetched order, as the engines' stable sorts leave them, under the other keys it is sorted by the key's comparator |
| View.Render | src/App.tsx:56-79 | Every render shows the list, never the loading placeholder: a falsy item state gives the empty list, an array gives the page's list |
| View.InitialRenderIsEmptyList | src/App.tsx:29-30 | Before anything is loaded, the page shows an empty list under the default key `created` |
| CreatedAsWritten.StringToNumber | src/App.tsx:59 | Converting a string to a number gives NaN whenever the string holds a character that neither a numeric literal nor white space contains, and a string of decimal digits whose value is at most 2^53 gives that value |
| CreatedAsWritten.ObjectToNumber | src/App.tsx:59 | A `{_seconds, _nanoseconds}` object converts to NaN, because its primitive value is "[object Object]" |
| CreatedAsWritten.Minus | src/App.tsx:59 | A NaN operand makes the difference NaN, and the difference is finite exactly when both operands are, then equal to their difference |
| CreatedAsWritten.SortCompareResult | src/App.tsx:57 | The sort puts the first argument first only on a finite negative comparator result and last only on a finite positive one; NaN never reorders |
| CreatedAsWritten.CompareCreated | src/App.tsx:59 | As written, the `created` comparator returns 0 for every pair, because subtracting the objects gives NaN, which the sort reads as 0 |
| CreatedAsWritten.AnyOrderAccepted | src/App.tsx:59 | As written, every order of the items passes as sorted by `created` |
| CreatedAsWritten.InsertBy | src/App.tsx:57 | One step of a stable insertion sort (standing for the engines' stable sort) adds exactly the one item |
| CreatedAsWritten.StableSortBy | src/App.tsx:57 | A stable sort (standing for the engines') returns a permutation of its input |
| CreatedAsWritten.SortAsWritten | src/App.tsx:57-59 | The `created` sort as written returns a permutation of its input that the written comparator accepts as sorted |
| CreatedAsWritten.StableSortByKeepsOrder | src/App.tsx:57 | Under a comparator that never puts its second argument first, a stable sort (standing for the engines') returns its input unchanged; any stable sort does, so the insertion sort stands for them all here |
| CreatedAsWritten.SortAsWrittenKeepsOrder | src/App.tsx:57-59 | The `created` sort as the engines run it returns the list in its fetched order |
| Examples.KudosExample | src/App.tsx:60-61 | Kudos counts 0, 5, 2 are listed as 5, 2, 0 |
| Examples.LevelExample | src/App.tsx:57-69 | Levels medium, (null data), advanced, newbie, missing are listed as advanced, medium, newbie, missing; the null-data item is dropped |
| Examples.CreatedExample | src/App.tsx:58-59 | Creation seconds 100, 300, 200 are listed as 300, 200, 100 (corrected comparator) |
| Examples.WrittenComparatorKeepsUnorderedList | src/App.tsx:59 | Items created at seconds 100, 300, 200 pass as sorted as written, but are not newest first |
| Examples.CreatedPageExample | src/App.tsx:56-59 | The page as written shows items created at seconds 100, 300, 200 as 100, 300, 200 |
| Examples.CreatedNanosExample | src/App.tsx:58-59 | Two items in the same second are listed later-nanosecond first (corrected comparator) |

## Findings

| source | as written | input that shows it | evidently intended | confidence | as-written member | corrected member |
|---|---|---|---|---|---|---|
| src/App.tsx:59 | With `created` holding the `{_seconds, _nanoseconds}` object that `formatCreated` reads (src/App.tsx:74-77), `b.created - a.created` subtracts two such objects. The result is NaN, which `Array.prototype.sort` reads as 0, so every pair ties; the engines' stable sorts then keep the fetched order, which ECMAScript leaves implementation-defined for such a comparator | three items created at seconds 100, 300, 200 (nanoseconds 0) stay as 100, 300, 200 on a stable engine | newest first: 300, 200, 100, comparing the instants `seconds * 10^9 + nanoseconds` | high; not executed | Examples.WrittenComparatorKeepsUnorderedList | View.CreatedNewestFirst |

The corrected comparator is the `Created` branch of `Comparators.Compare`. The derivation
`View.SortedItems` and its lemmas use it, and `Examples.CreatedExample` shows the 300, 200,
100 order. The page itself, `View.PageItems` and `View.Render`, keeps the behaviour as
written on engines whose stable sort reads NaN as +0:
`CreatedAsWritten.SortAsWrittenKeepsOrder` shows the fetched order is kept there, and
`Examples.CreatedPageExample` shows 100, 300, 200.

## Left out

- The cache-or-fetch loader (src/App.tsx:32-49) is left out: the network request, JSON parsing, and the `lscache` store with its 3600-second expiry. These are I/O, wall-clock time and a foreign library. The loader's result enters the model only as the `items` state (`View.ItemList`).
- `formatCreated` (src/App.tsx:74-77) is left out: floating-point division, `Date`, and locale-dependent formatting.
- `handleSortChange`, the `<select>` markup, the list rendering and src/App.test.tsx are left out. They are React and Material-UI glue; the test only checks rendered text.
- Level labels outside the rank table are left out. They make the comparator return NaN, which the sort reads as a tie, so the comparator stops being consistent. `Items.LookupRank` models that such a lookup finds nothing, but `Item` only holds the four modelled levels.
- Items whose `data` is missing (`undefined` rather than `null`) pass the filter and then throw when the level is read. Items without a `kudosFull` array throw under `kudosFull`. The model types `data` as an `Option` and always gives an item a kudos array.
- The `| any` alternative of `created` (src/App.tsx:20) is left out. `Item.created` is the `{_seconds, _nanoseconds}` object that `formatCreated` reads (src/App.tsx:74-77). A number or `Date` there would make line 59 a finite difference that sorts newest first, so the as-written results about `created` (`CreatedAsWritten.CompareCreated`, `CreatedAsWritten.SortAsWrittenKeepsOrder`, `View.PageItems`, `Examples.CreatedPageExample`) hold for the object shape only.
- View.SortedItems: its `created` branch uses the corrected comparator, not the code as written; the page as written, which keeps the fetched order under `created`, is `View.PageItems`, and `View.Render` uses that.
- Tie order under `kudosFull` and `data.level` is left out. The source has no secondary key and relies on the engine's `Array.prototype.sort`. Insertion sort is only the reference sort, and no contract states the order among ties.
- CreatedAsWritten.StringToNumber: evaluates only two kinds of string, those holding a character that neither a numeric literal nor white space contains (NaN) and strings of decimal digits with a value of at most 2^53 (their value; a larger value would be rounded to a double); every other string, including NaN-valued ones such as "abc" or "1a" and white-space-padded numbers, is left `Unevaluated`, because the comparator only ever converts "[object Object]".
- CreatedAsWritten.Minus: does not say when an unevaluated operand makes the difference NaN (as `Infinity - Infinity` is); such a difference is left `Unevaluated`.
- View.PageItems: under `created` it gives the fetched order, which is what engines with a stable sort that read a NaN comparator result as +0 produce; ECMAScript leaves the order implementation-defined for a comparator that returns NaN.
- CreatedAsWritten.SortAsWrittenKeepsOrder: models those engines' stable sort, not an ECMAScript guarantee, for the same reason.
- View.SortedItemsScoresDetermined: states that the sequence of key values is determined, not the full order of items, because the order among ties depends on the engine's sort.
- A falsy JSON body (`null`, `false`, `0` or `""`) takes the `[]` branch of line 56 and is modelled (`View.ItemList.Falsy`). Other non-array bodies are left out: a non-empty string spreads into its characters, which pass the filter and throw later (in the kudos or level comparator, or at line 92); numbers, `true` and plain objects are not iterable and throw at the spread on line 57.
- Number width: JavaScript numbers are doubles, but the model uses unbounded integers. Kudos counts and ranks are small. `seconds * 10^9 + nanoseconds` can exceed 2^53, so a JavaScript version of the corrected comparator should compare seconds first and nanoseconds second; `Items.InstantLexicographic` shows that this gives the same order.

=== FILE: comparators.dfy ===
/**
 The sort keys the view offers and the comparator each one selects. A comparator
 follows `Array.prototype.sort`'s convention: a negative result puts its first
 argument first, so `later - earlier` orders by descending key.
 */
module Comparators {
  import opened Items

  /** The `sortBy` state: 'created' | 'kudosFull' | 'data.level'. */
  datatype SortKey = Created | KudosFull | DataLevel

  /** The key the view starts with. */
  const DefaultSortKey: SortKey := Created

  /** The string value of each key, as the view stores it. */
  function KeyName(k: SortKey): string {
    match k
    case Created => "created"
    case KudosFull => "kudosFull"
    case DataLevel => "data.level"
  }

  /**
   The comparator branch the sort takes for a stored `sortBy` string: the `created`
   and `kudosFull` tests come first, and every other string falls into the level branch.
   */
  function BranchFor(value: string): (r: SortKey)
    ensures KeyName(r) == value || (r == DataLevel && forall k: SortKey :: KeyName(k) != value)
  {
    if value == "created" then Created
    else if value == "kudosFull" then KudosFull
    else DataLevel
  }

  /** Each key's stored value selects that key's own branch. */
  lemma KeyNameRoundTrip(k: SortKey)
    ensures BranchFor(KeyName(k)) == k
  {
  }

  /** What a comparator reads of an item: the level comparator dereferences `data`. */
  predicate Comparable(k: SortKey, x: Item) {
    k.DataLevel? ==> x.data.Some?
  }

  /** The quantity key `k` orders by, larger first. */
  function Score(k: SortKey, x: Item): (r: int)
    requires Comparable(k, x)
    ensures k.KudosFull? ==> r >= 0
    ensures k.DataLevel? ==> 0 <= r <= 3
    ensures k.Created? && ValidTimestamp(x.created) ==> x.created.seconds * 1_000_000_000 <= r < (x.created.seconds + 1) * 1_000_000_000
  {
    match k
    case Created => Instant(x.created)
    case KudosFull => |x.kudosFull|
    case DataLevel => Rank(x.data.value.level)
  }

  /**
   The comparator for key `k`. It puts `a` first exactly when `a`'s score is the
   larger, and ties exactly on equal scores. The `created` branch resolves each
   timestamp to its instant before subtracting; the code as written subtracts the
   objects themselves (see module CreatedAsWritten).
   */
  function Compare(k: SortKey, a: Item, b: Item): (r: int)
    requires Comparable(k, a) && Comparable(k, b)
    ensures r < 0 <==> Score(k, a) > Score(k, b)
    ensures r == 0 <==> Score(k, a) == Score(k, b)
  {
    match k
    case Created => Instant(b.created) - Instant(a.created)
    case KudosFull => |b.kudosFull| - |a.kudosFull|
    case DataLevel => Rank(b.data.value.level) - Rank(a.data.value.level)
  }

  /** Antisymmetry: swapping the arguments negates the result, and an item ties with itself. */
  lemma CompareAntisymmetric(k: SortKey, a: Item, b: Item)
    requires Comparable(k, a) && Comparable(k, b)
    ensures Compare(k, a, b) == -Compare(k, b, a)
    ensures Compare(k, a, a) == 0
  {
  }

  /** "Not after" is a total preorder: total and transitive. */
  lemma CompareTotalPreorder(k: SortKey, a: Item, b: Item, c: Item)
    requires Comparable(k, a) && Comparable(k, b) && Comparable(k, c)
    ensures Compare(k, a, b) <= 0 || Compare(k, b, a) <= 0
    ensures Compare(k, a, b) <= 0 && Compare(k, b, c) <= 0 ==> Compare(k, a, c) <= 0
  {
  }
}

=== FILE: created_as_written.dfy ===
/**
 The `created` comparator as the code writes it: `b.created - a.created`, where each
 operand is a plain `{_seconds, _nanoseconds}` object (the shape `formatCreated` reads;
 the `| any` alternative of the declared type is not modelled). Subtracting objects converts
 each to a number; a plain object's primitive value is the string "[object Object]",
 which is not numeric, so the difference is NaN. `Array.prototype.sort` (the
 ECMAScript SortCompare operation) reads a NaN comparator result as +0, so every pair
 counts as a tie and any order passes as sorted. ECMAScript leaves the result of a sort
 implementation-defined when the comparator returns NaN; the engines' stable sorts keep
 the input order, and `SortAsWritten` models that. The corrected comparator is the
 `Created` branch of `Comparators.Compare`, which compares instants.
 */
module CreatedAsWritten {
  import opened Wrappers
  import opened Items
  import opened Comparators
  import opened Sorting

  /**
   A JavaScript number, as far as this comparator needs one. `Unevaluated` stands for a
   value this model does not compute: it may be any number, NaN included (a fraction, an
   exponent, a hexadecimal or `Infinity` literal, a string such as "abc" or "1a").
   */
  datatype Number = Finite(value: int) | NaN | Unevaluated

  /** `ToPrimitive` of a plain object: `Object.prototype.toString` gives its tag. */
  function ToPrimitive(t: Timestamp): string {
    "[object Object]"
  }

  /**
   The white space and line terminators `ToNumber` trims from a string: tab, vertical
   tab, form feed, the space separators, the byte order mark, line feed, carriage
   return, and the line and paragraph separators.
   */
  predicate WhiteSpaceChar(c: char) {
    c in "\t\U{000B}\U{000C} \U{00A0}\U{1680}\U{202F}\U{205F}\U{3000}\U{FEFF}\n\r\U{2028}\U{2029}"
    || '\U{2000}' <= c <= '\U{200A}'
  }

  /** The characters that can occur in a string numeric literal, surrounding white space included. */
  predicate NumericChar(c: char) {
    '0' <= c <= '9' || 'a' <= c <= 'f' || 'A' <= c <= 'F' || c in "+-.xXoOInity" || WhiteSpaceChar(c)
  }

  /** `Number.MAX_SAFE_INTEGER`: every integer up to one more than this is a double exactly. */
  const MaxSafe: nat := 0x1F_FFFF_FFFF_FFFF

  predicate Digit(c: char) {
    '0' <= c <= '9'
  }

  /** The value of a string of decimal digits. */
  function DecimalValue(s: string): (r: nat)
    requires forall i :: 0 <= i < |s| ==> Digit(s[i])
    decreases |s|
  {
    if |s| == 0 then 0
    else
      assert Digit(s[|s| - 1]);
      DecimalValue(s[..|s| - 1]) * 10 + (s[|s| - 1] as int - '0' as int)
  }

  /** The decimal digits of a number, as `String(n)` writes them. */
  function DecimalString(n: nat): (r: string)
    ensures 0 < |r|
    ensures forall i :: 0 <= i < |r| ==> Digit(r[i])
  {
    if n < 10 then [('0' as int + n) as char]
    else DecimalString(n / 10) + [('0' as int + n % 10) as char]
  }

  /** Reading back the digits `String(n)` writes gives `n`. */
  lemma {:induction false} DecimalRoundTrip(n: nat)
    ensures DecimalValue(DecimalString(n)) == n
  {
    var s := DecimalString(n);
    if n >= 10 {
      DecimalRoundTrip(n / 10);
      assert s[..|s| - 1] == DecimalString(n / 10);
    }
  }

  /**
   `ToNumber` of a string: a string with a character that neither a numeric literal nor
   white space contains is NaN, a string of decimal digits (the empty string included)
   whose value is at most 2^53 is that value, and every other string is left
   unevaluated (a larger value would be rounded to a double).
   */
  function StringToNumber(s: string): (r: Number)
    ensures (exists i :: 0 <= i < |s| && !NumericChar(s[i])) ==> r.NaN?
    ensures (forall i :: 0 <= i < |s| ==> Digit(s[i])) && DecimalValue(s) <= MaxSafe + 1 ==>
      r == Finite(DecimalValue(s))
  {
    if exists i :: 0 <= i < |s| && !NumericChar(s[i]) then NaN
    else if (forall i :: 0 <= i < |s| ==> Digit(s[i])) && DecimalValue(s) <= MaxSafe + 1 then
      Finite(DecimalValue(s))
    else Unevaluated
  }

  /** Converting the digits of a number back to a number gives the number, for every number a double holds exactly. */
  lemma StringToNumberOfDecimal(n: nat)
    requires n <= MaxSafe + 1
    ensures StringToNumber(DecimalString(n)) == Finite(n)
  {
    DecimalRoundTrip(n);
  }

  /** `ToNumber` of a plain timestamp object: its primitive "[object Object]" is not numeric. */
  function ObjectToNumber(t: Timestamp): (r: Number)
    ensures r.NaN?
  {
    var p := ToPrimitive(t);
    assert !NumericChar(p[0]);
    StringToNumber(p)
  }

  /**
   Subtraction: NaN in either operand gives NaN, two finite operands give their
   difference, and otherwise the result is left unevaluated (it may be NaN, as
   `Infinity - Infinity` is).
   */
  function Minus(x: Number, y: Number): (r: Number)
    ensures x.NaN? || y.NaN? ==> r.NaN?
    ensures r.Finite? <==> x.Finite? && y.Finite?
    ensures r.Finite? ==> r.value + y.value == x.value
  {
    if x.NaN? || y.NaN? then NaN
    else if x.Unevaluated? || y.Unevaluated? then Unevaluated
    else Finite(x.value - y.value)
  }

  /**
   How the sort reads a comparator result: NaN becomes +0, so only a finite negative
   result puts the first argument first and only a finite positive one puts it last.
   */
  function SortCompareResult(v: Number): (r: int)
    requires !v.Unevaluated?
    ensures r < 0 <==> v.Finite? && v.value < 0
    ensures r > 0 <==> v.Finite? && v.value > 0
  {
    if v.NaN? then 0 else v.value
  }

  /** The comparator exactly as written for the `created` key. */
  function CompareCreated(a: Item, b: Item): (r: int)
    ensures r == 0
  {
    SortCompareResult(Minus(ObjectToNumber(b.created), ObjectToNumber(a.created)))
  }

  /** The order the written comparator accepts as sorted. */
  predicate AcceptedAsWritten(s: seq<Item>) {
    forall i, j :: 0 <= i < j < |s| ==> CompareCreated(s[i], s[j]) <= 0
  }

  /** Every order is accepted: the written comparator cannot move the newest item to the top. */
  lemma AnyOrderAccepted(s: seq<Item>)
    ensures AcceptedAsWritten(s)
  {
  }

  /**
   One step of a stable insertion sort under comparator `cmp`: `x` goes after the last
   element of `t` that does not compare greater than it.
   */
  function InsertBy(cmp: (Item, Item) -> int, t: seq<Item>, x: Item): (r: seq<Item>)
    ensures multiset(r) == multiset(t) + multiset{x}
    decreases |t|
  {
    if |t| == 0 || cmp(t[|t| - 1], x) <= 0 then t + [x]
    else
      assert t == t[..|t| - 1] + [t[|t| - 1]];
      InsertBy(cmp, t[..|t| - 1], x) + [t[|t| - 1]]
  }

  /** A stable insertion sort under comparator `cmp`. */
  function StableSortBy(cmp: (Item, Item) -> int, s: seq<Item>): (r: seq<Item>)
    ensures multiset(r) == multiset(s)
    decreases |s|
  {
    if |s| == 0 then []
    else
      assert s == s[..|s| - 1] + [s[|s| - 1]];
      InsertBy(cmp, StableSortBy(cmp, s[..|s| - 1]), s[|s| - 1])
  }

  /**
   The `created` sort as the engines run it: a stable sort driven by the written
   comparator. ECMAScript requires `Array.prototype.sort` to be stable only for a
   consistent comparator, and one that returns NaN is not, so the order is
   implementation-defined; the engines' stable sorts read NaN as +0 and keep the order.
   */
  function SortAsWritten(s: seq<Item>): (r: seq<Item>)
    ensures multiset(r) == multiset(s)
    ensures AcceptedAsWritten(r)
  {
    var r := StableSortBy(CompareCreated, s);
    AnyOrderAccepted(r);
    r
  }

  /** Under a comparator that never puts its second argument first, each inserted item stays last. */
  lemma InsertByAppends(cmp: (Item, Item) -> int, t: seq<Item>, x: Item)
    requires forall a, b :: cmp(a, b) <= 0
    ensures InsertBy(cmp, t, x) == t + [x]
  {
  }

  /** Under a comparator that never puts its second argument first, the stable sort changes nothing. */
  lemma {:induction false} StableSortByKeepsOrder(cmp: (Item, Item) -> int, s: seq<Item>)
    requires forall a, b :: cmp(a, b) <= 0
    ensures StableSortBy(cmp, s) == s
    decreases |s|
  {
    if |s| > 0 {
      var init, last := s[..|s| - 1], s[|s| - 1];
      StableSortByKeepsOrder(cmp, init);
      InsertByAppends(cmp, init, last);
      assert s == init + [last];
    }
  }

  /** The written `created` sort leaves the list in the order it was fetched. */
  lemma SortAsWrittenKeepsOrder(s: seq<Item>)
    ensures SortAsWritten(s) == s
  {
    assert forall a, b :: CompareCreated(a, b) <= 0;
    StableSortByKeepsOrder(CompareCreated, s);
  }

}

=== FILE: examples.dfy ===
/** Worked examples: each derivation computed on a small feed. */
module Examples {
  import opened Wrappers
  import opened Items
  import opened Comparators
  import opened Sorting
  import opened View
  import opened CreatedAsWritten

  function Entry(id: int, seconds: int, kudos: seq<int>, level: Level): Item {
    Item(id, Timestamp(seconds, 0), kudos, Some(LevelHolder(level)))
  }

  const NoKudos: Item := Entry(1, 0, [], Absent)
  const FiveKudos: Item := Entry(2, 0, [1, 2, 3, 4, 5], Absent)
  const TwoKudos: Item := Entry(3, 0, [1, 2], Absent)

  lemma KudosFeedShown()
    ensures Visible([NoKudos, FiveKudos, TwoKudos]) == [NoKudos, FiveKudos, TwoKudos]
  {
    VisibleKeepsShownFeed([NoKudos, FiveKudos, TwoKudos]);
  }

  lemma KudosScores()
    ensures AllComparable(KudosFull, [FiveKudos, TwoKudos, NoKudos])
    ensures StrictlyDecreasing(Scores(KudosFull, [FiveKudos, TwoKudos, NoKudos]))
  {
    assert Scores(KudosFull, [FiveKudos, TwoKudos, NoKudos]) == [5, 2, 0];
  }

  /** Kudos counts 0, 5, 2 are listed as 5, 2, 0. */
  lemma KudosExample()
    ensures SortedItems([NoKudos, FiveKudos, TwoKudos], KudosFull) == [FiveKudos, TwoKudos, NoKudos]
  {
    KudosFeedShown();
    KudosScores();
    assert multiset([FiveKudos, TwoKudos, NoKudos]) == multiset([NoKudos, FiveKudos, TwoKudos]);
    SortedItemsUnique([NoKudos, FiveKudos, TwoKudos], KudosFull, [FiveKudos, TwoKudos, NoKudos]);
  }

  const MediumItem: Item := Entry(4, 0, [], Medium)
  const AdvancedItem: Item := Entry(5, 0, [], Advanced)
  const NewbieItem: Item := Entry(6, 0, [], Newbie)
  const UnlabelledItem: Item := Entry(7, 0, [], Absent)
  /** An item whose level holder is `null`. */
  const HiddenItem: Item := Item(8, Timestamp(0, 0), [], None)

  lemma LevelFeedFiltered()
    ensures Visible([MediumItem, HiddenItem, AdvancedItem, NewbieItem, UnlabelledItem])
      == [MediumItem, AdvancedItem, NewbieItem, UnlabelledItem]
  {
    var t := [AdvancedItem, NewbieItem, UnlabelledItem];
    LevelFeedSplit();
    assert forall x :: x in t ==> Shown(x);
    calc {
      Visible([MediumItem, HiddenItem, AdvancedItem, NewbieItem, UnlabelledItem]);
      Visible([MediumItem] + ([HiddenItem] + t));
      { VisibleCons(MediumItem, [HiddenItem] + t); }
      [MediumItem] + Visible([HiddenItem] + t);
      { HiddenDropped(t); }
      [MediumItem] + t;
    }
  }

  lemma HiddenDropped(t: seq<Item>)
    requires forall x :: x in t ==> Shown(x)
    ensures Visible([HiddenItem] + t) == t
  {
    VisibleCons(HiddenItem, t);
    VisibleKeepsShownFeed(t);
    assert [] + t == t;
  }

  lemma LevelFeedSplit()
    ensures [MediumItem, HiddenItem, AdvancedItem, NewbieItem, UnlabelledItem]
      == [MediumItem] + ([HiddenItem] + [AdvancedItem, NewbieItem, UnlabelledItem])
    ensures [MediumItem] + [AdvancedItem, NewbieItem, UnlabelledItem]
      == [MediumItem, AdvancedItem, NewbieItem, UnlabelledItem]
  {
  }

  lemma LevelScores()
    ensures AllComparable(DataLevel, [AdvancedItem, MediumItem, NewbieItem, UnlabelledItem])
    ensures StrictlyDecreasing(Scores(DataLevel, [AdvancedItem, MediumItem, NewbieItem, UnlabelledItem]))
  {
    assert Scores(DataLevel, [AdvancedItem, MediumItem, NewbieItem, UnlabelledItem]) == [3, 2, 1, 0];
  }

  lemma LevelPermutation()
    ensures multiset([AdvancedItem, MediumItem, NewbieItem, UnlabelledItem])
      == multiset([MediumItem, AdvancedItem, NewbieItem, UnlabelledItem])
  {
  }

  /**
   Levels medium, (null holder), advanced, newbie and a missing label are listed as
   advanced, medium, newbie, missing label; the item with the `null` holder is dropped.
   */
  lemma LevelExample()
    ensures SortedItems([MediumItem, HiddenItem, AdvancedItem, NewbieItem, UnlabelledItem], DataLevel)
      == [AdvancedItem, MediumItem, NewbieItem, UnlabelledItem]
  {
    LevelFeedFiltered();
    LevelScores();
    LevelPermutation();
    SortedItemsUnique([MediumItem, HiddenItem, AdvancedItem, NewbieItem, UnlabelledItem], DataLevel,
      [AdvancedItem, MediumItem, NewbieItem, UnlabelledItem]);
  }

  const Oldest: Item := Entry(9, 100, [], Absent)
  const Newest: Item := Entry(10, 300, [], Absent)
  const Middle: Item := Entry(11, 200, [], Absent)

  lemma CreatedFeedShown()
    ensures Visible([Oldest, Newest, Middle]) == [Oldest, Newest, Middle]
  {
    VisibleKeepsShownFeed([Oldest, Newest, Middle]);
  }

  lemma CreatedScores()
    ensures AllComparable(Created, [Newest, Middle, Oldest])
    ensures StrictlyDecreasing(Scores(Created, [Newest, Middle, Oldest]))
  {
    assert Scores(Created, [Newest, Middle, Oldest]) == [300_000_000_000, 200_000_000_000, 100_000_000_000];
  }

  /** Under the corrected comparator, creation seconds 100, 300, 200 are listed newest first: 300, 200, 100. */
  lemma CreatedExample()
    ensures SortedItems([Oldest, Newest, Middle], Created) == [Newest, Middle, Oldest]
  {
    CreatedFeedShown();
    CreatedScores();
    assert multiset([Newest, Middle, Oldest]) == multiset([Oldest, Newest, Middle]);
    SortedItemsUnique([Oldest, Newest, Middle], Created, [Newest, Middle, Oldest]);
  }

  /**
   Items created at seconds 100, 300 and 200, in that order, pass as sorted under the
   written comparator, yet they are not newest first.
   */
  lemma WrittenComparatorKeepsUnorderedList()
    ensures AcceptedAsWritten([Oldest, Newest, Middle])
    ensures !SortedBy(Created, [Oldest, Newest, Middle])
  {
    AnyOrderAccepted([Oldest, Newest, Middle]);
    var s := [Oldest, Newest, Middle];
    assert Compare(Created, s[0], s[1]) > 0;
  }

  /** The page as written shows the same feed in its fetched order: 100, 300, 200. */
  lemma CreatedPageExample()
    ensures Render(Array([Oldest, Newest, Middle]), Created) == Ready(Created, [Oldest, Newest, Middle])
  {
    CreatedFeedShown();
  }

  const Early: Item := Item(12, Timestamp(100, 5), [], Some(LevelHolder(Newbie)))
  const Late: Item := Item(13, Timestamp(100, 7), [], Some(LevelHolder(Newbie)))

  lemma NanosFeedShown()
    ensures Visible([Early, Late]) == [Early, Late]
  {
    VisibleKeepsShownFeed([Early, Late]);
  }

  lemma NanosScores()
    ensures AllComparable(Created, [Late, Early])
    ensures StrictlyDecreasing(Scores(Created, [Late, Early]))
  {
    assert Scores(Created, [Late, Early]) == [100_000_000_007, 100_000_000_005];
  }

  /** Two items in the same second are ordered by their nanoseconds: the later one first. */
  lemma CreatedNanosExample()
    ensures SortedItems([Early, Late], Created) == [Late, Early]
  {
    NanosFeedShown();
    NanosScores();
    assert multiset([Late, Early]) == multiset([Early, Late]);
    SortedItemsUnique([Early, Late], Created, [Late, Early]);
  }
}

=== FILE: items.dfy ===
/**
 The entities of the workout feed: a feed item, its skill level and its creation
 timestamp, together with the rank table the level comparator uses.
 */
module Items {
  import opened Wrappers

  /** The skill level held in `data.level`; `Absent` is a label that is missing (`undefined`). */
  datatype Level = Advanced | Medium | Newbie | Absent

  /** The nested structure that holds the level; an item whose holder is `null` is not shown. */
  datatype LevelHolder = LevelHolder(level: Level)

  /** A creation time as the feed delivers it: whole seconds plus a nanosecond remainder. */
  datatype Timestamp = Timestamp(seconds: int, nanos: int)

  /**
   One feed entry. Only the length of `kudosFull` matters to the view; `data == None`
   is a `null` level holder.
   */
  datatype Item = Item(id: int, created: Timestamp, kudosFull: seq<int>, data: Option<LevelHolder>)

  /** The property key under which a level is looked up in the rank table (`String(undefined)` is "undefined"). */
  function Label(l: Level): string {
    match l
    case Advanced => "advanced"
    case Medium => "medium"
    case Newbie => "newbie"
    case Absent => "undefined"
  }

  /** The level a rank-table key stands for, if any. */
  function ParseLabel(s: string): (r: Option<Level>)
    ensures r.Some? ==> Label(r.value) == s
    ensures r.None? ==> forall l: Level :: Label(l) != s
  {
    if s == "advanced" then Some(Advanced)
    else if s == "medium" then Some(Medium)
    else if s == "newbie" then Some(Newbie)
    else if s == "undefined" then Some(Absent)
    else None
  }

  lemma LabelRoundTrip(l: Level)
    ensures ParseLabel(Label(l)) == Some(l)
  {
  }

  /** The rank table: a higher rank is shown first. */
  const LevelMap: map<string, int> := map["advanced" := 3, "medium" := 2, "newbie" := 1, "undefined" := 0]

  /**
   Indexing the rank table: `None` is a lookup that gives no number, which is
   `undefined` for most keys outside the table and an inherited `Object.prototype`
   member (such as `constructor` or `toString`) for the others; either way the
   subtraction that uses it is NaN.
   */
  function LookupRank(key: string): (r: Option<int>)
    ensures r.Some? <==> ParseLabel(key).Some?
    ensures r.Some? ==> 0 <= r.value <= 3
  {
    if key in LevelMap then Some(LevelMap[key]) else None
  }

  /** The rank of a level; `RankFromTable` shows it is what the rank table holds under the level's label. */
  function Rank(l: Level): (r: int)
    ensures 0 <= r <= 3
  {
    match l
    case Advanced => 3
    case Medium => 2
    case Newbie => 1
    case Absent => 0
  }

  /** Every level's label is a key of the rank table, and looking it up gives the level's rank. */
  lemma RankFromTable(l: Level)
    ensures LookupRank(Label(l)) == Some(Rank(l))
  {
  }

  /** Ranks order the levels strictly: advanced over medium over newbie over a missing label. */
  lemma RankOrder()
    ensures Rank(Advanced) == 3 && Rank(Medium) == 2 && Rank(Newbie) == 1 && Rank(Absent) == 0
    ensures forall l, m :: Rank(l) == Rank(m) ==> l == m
  {
  }

  /** A well-formed timestamp keeps its remainder below one second (10^9 nanoseconds). */
  predicate ValidTimestamp(t: Timestamp) {
    0 <= t.nanos < 1_000_000_000
  }

  /** The single instant a timestamp denotes, in nanoseconds since the epoch. */
  function Instant(t: Timestamp): int {
    t.seconds * 1_000_000_000 + t.nanos
  }

  /** Comparing instants is comparing (seconds, nanos) lexicographically, so no wide arithmetic is needed. */
  lemma InstantLexicographic(t: Timestamp, u: Timestamp)
    requires ValidTimestamp(t) && ValidTimestamp(u)
    ensures Instant(t) < Instant(u) <==> t.seconds < u.seconds || (t.seconds == u.seconds && t.nanos < u.nanos)
    ensures Instant(t) == Instant(u) <==> t == u
  {
  }
}

=== FILE: sorting.dfy ===
/**
 Sorting feed items with a key's comparator. Insertion sort is the reference
 algorithm; the contracts state what any correct sort delivers (a permutation in
 comparator order) and say nothing about the order of ties.
 */
module Sorting {
  import opened Items
  import opened Comparators

  predicate AllComparable(k: SortKey, s: seq<Item>) {
    forall x :: x in s ==> Comparable(k, x)
  }

  /** No element of `s` must, by the comparator, come after a later one. */
  predicate SortedBy(k: SortKey, s: seq<Item>)
    requires AllComparable(k, s)
  {
    forall i, j :: 0 <= i < j < |s| ==> Compare(k, s[i], s[j]) <= 0
  }

  /** A sequence is sorted exactly when its head may precede every later element and its tail is sorted. */
  lemma SortedCons(k: SortKey, a: Item, t: seq<Item>)
    requires Comparable(k, a) && AllComparable(k, t)
    ensures AllComparable(k, [a] + t)
    ensures SortedBy(k, [a] + t) <==> (forall y :: y in t ==> Compare(k, a, y) <= 0) && SortedBy(k, t)
  {
    if SortedBy(k, [a] + t) {
      SortedConsElim(k, a, t);
    }
    if (forall y :: y in t ==> Compare(k, a, y) <= 0) && SortedBy(k, t) {
      SortedConsIntro(k, a, t);
    }
  }

  lemma SortedConsElim(k: SortKey, a: Item, t: seq<Item>)
    requires Comparable(k, a) && AllComparable(k, t) && AllComparable(k, [a] + t)
    requires SortedBy(k, [a] + t)
    ensures forall y :: y in t ==> Compare(k, a, y) <= 0
    ensures SortedBy(k, t)
  {
    var s := [a] + t;
    forall y | y in t
      ensures Compare(k, a, y) <= 0
    {
      var j :| 0 <= j < |t| && t[j] == y;
      assert s[0] == a && s[j + 1] == y;
      assert Compare(k, s[0], s[j + 1]) <= 0;
    }
    forall i, j | 0 <= i < j < |t|
      ensures Compare(k, t[i], t[j]) <= 0
    {
      assert s[i + 1] == t[i] && s[j + 1] == t[j];
      assert Compare(k, s[i + 1], s[j + 1]) <= 0;
    }
  }

  lemma SortedConsIntro(k: SortKey, a: Item, t: seq<Item>)
    requires Comparable(k, a) && AllComparable(k, t)
    requires forall y :: y in t ==> Compare(k, a, y) <= 0
    requires SortedBy(k, t)
    ensures AllComparable(k, [a] + t) && SortedBy(k, [a] + t)
  {
    var s := [a] + t;
    forall i, j | 0 <= i < j < |s|
      ensures Compare(k, s[i], s[j]) <= 0
    {
      assert s[j] == t[j - 1];
      if i == 0 {
        assert t[j - 1] in t;
      } else {
        assert s[i] == t[i - 1];
        assert Compare(k, t[i - 1], t[j - 1]) <= 0;
      }
    }
  }

  /** An item that may precede the head of a sorted sequence may precede all of it. */
  lemma PrecedesHead(k: SortKey, x: Item, s: seq<Item>)
    requires Comparable(k, x) && AllComparable(k, s) && SortedBy(k, s)
    requires |s| > 0 && Compare(k, x, s[0]) <= 0
    ensures forall y :: y in s ==> Compare(k, x, y) <= 0
  {
    forall y | y in s
      ensures Compare(k, x, y) <= 0
    {
      var j :| 0 <= j < |s| && s[j] == y;
      if j > 0 {
        assert Compare(k, s[0], s[j]) <= 0;
      }
      CompareTotalPreorder(k, x, s[0], y);
    }
  }

  /** Inserts `x` into the sorted `s` before the first element it need not follow. */
  function Insert(k: SortKey, x: Item, s: seq<Item>): (r: seq<Item>)
    requires Comparable(k, x) && AllComparable(k, s) && SortedBy(k, s)
    ensures multiset(r) == multiset(s) + multiset{x}
    ensures forall y :: y in r ==> y == x || y in s
    ensures AllComparable(k, r) && SortedBy(k, r)
    decreases |s|
  {
    if |s| == 0 then [x]
    else if Compare(k, x, s[0]) <= 0 then
      PrecedesHead(k, x, s);
      SortedCons(k, x, s);
      [x] + s
    else
      assert s == [s[0]] + s[1..];
      SortedCons(k, s[0], s[1..]);
      var t := Insert(k, x, s[1..]);
      CompareAntisymmetric(k, x, s[0]);
      assert forall y :: y in t ==> Compare(k, s[0], y) <= 0;
      SortedCons(k, s[0], t);
      [s[0]] + t
  }

  /** Sorts `s` by the comparator of key `k`. */
  function InsertionSort(k: SortKey, s: seq<Item>): (r: seq<Item>)
    requires AllComparable(k, s)
    ensures multiset(r) == multiset(s)
    ensures AllComparable(k, r) && SortedBy(k, r)
    decreases |s|
  {
    if |s| == 0 then []
    else
      assert s == [s[0]] + s[1..];
      Insert(k, s[0], InsertionSort(k, s[1..]))
  }

  /** The scores along `s`, in order. */
  function Scores(k: SortKey, s: seq<Item>): seq<int>
    requires AllComparable(k, s)
  {
    seq(|s|, i requires 0 <= i < |s| => Score(k, s[i]))
  }

  predicate NonIncreasing(a: seq<int>) {
    forall i, j :: 0 <= i < j < |a| ==> a[i] >= a[j]
  }

  /** Sorted by the comparator means the scores never increase along the sequence. */
  lemma SortedIffScoresNonIncreasing(k: SortKey, s: seq<Item>)
    requires AllComparable(k, s)
    ensures SortedBy(k, s) <==> NonIncreasing(Scores(k, s))
  {
    var a := Scores(k, s);
    forall i, j | 0 <= i < j < |s|
      ensures Compare(k, s[i], s[j]) <= 0 <==> a[i] >= a[j]
    {
      assert a[i] == Score(k, s[i]) && a[j] == Score(k, s[j]);
    }
  }

  /** Removing the element at `m` removes one occurrence of it. */
  lemma RemoveAt<T>(s: seq<T>, m: nat)
    requires m < |s|
    ensures multiset(s[..m] + s[m + 1..]) == multiset(s) - multiset{s[m]}
  {
    assert s == s[..m] + [s[m]] + s[m + 1..];
  }

  /** Taking an item out at `m` takes its score out at `m`. */
  lemma ScoresRemoveAt(k: SortKey, s: seq<Item>, m: nat)
    requires AllComparable(k, s) && m < |s|
    ensures AllComparable(k, s[..m] + s[m + 1..])
    ensures Scores(k, s[..m] + s[m + 1..]) == Scores(k, s)[..m] + Scores(k, s)[m + 1..]
  {
  }

  /** Two multisets that agree once one occurrence of a shared element is removed are equal. */
  lemma CancelOne<T>(a: multiset<T>, b: multiset<T>, x: T)
    requires x in a && x in b
    requires a - multiset{x} == b - multiset{x}
    ensures a == b
  {
    assert a == (a - multiset{x}) + multiset{x};
    assert b == (b - multiset{x}) + multiset{x};
  }

  /** Two sequences are permutations of each other when they share an element whose removal leaves permutations. */
  lemma PermutationStep<T>(a: seq<T>, b: seq<T>, m: nat)
    requires 0 < |a| && m < |b| && a[0] == b[m]
    requires multiset(a[1..]) == multiset(b[..m] + b[m + 1..])
    ensures multiset(a) == multiset(b)
  {
    RemoveAt(a, 0);
    assert a[..0] + a[1..] == a[1..];
    RemoveAt(b, m);
    CancelOne(multiset(a), multiset(b), a[0]);
  }

  /** Removing matching elements from two permutations of each other leaves permutations. */
  lemma RemoveMatching<T>(a: seq<T>, b: seq<T>, m: nat)
    requires multiset(a) == multiset(b)
    requires 0 < |a| && m < |b| && a[0] == b[m]
    ensures multiset(a[1..]) == multiset(b[..m] + b[m + 1..])
  {
    assert a[..0] + a[1..] == a[1..];
    RemoveAt(a, 0);
    assert multiset(a[1..]) == multiset(a) - multiset{a[0]};
    RemoveAt(b, m);
  }

  /** Permuting items permutes their scores. */
  lemma {:induction false} ScoresOfPermutation(k: SortKey, s1: seq<Item>, s2: seq<Item>)
    requires AllComparable(k, s1) && AllComparable(k, s2)
    requires multiset(s1) == multiset(s2)
    ensures multiset(Scores(k, s1)) == multiset(Scores(k, s2))
    decreases |s1|
  {
    if |s1| == 0 {
      assert |s2| == |multiset(s2)| == 0;
    } else {
      assert s1[0] in multiset(s2);
      var m :| 0 <= m < |s2| && s2[m] == s1[0];
      var tail, rest := s1[1..], s2[..m] + s2[m + 1..];
      RemoveMatching(s1, s2, m);
      ScoresRemoveAt(k, s1, 0);
      ScoresRemoveAt(k, s2, m);
      ScoresOfPermutation(k, tail, rest);
      var a1, a2 := Scores(k, s1), Scores(k, s2);
      assert s1[..0] + tail == tail;
      assert a1[..0] + a1[1..] == a1[1..];
      assert Scores(k, tail) == a1[1..];
      assert Scores(k, rest) == a2[..m] + a2[m + 1..];
      PermutationStep(a1, a2, m);
    }
  }

  lemma NonIncreasingTail(a: seq<int>)
    requires NonIncreasing(a) && 0 < |a|
    ensures NonIncreasing(a[1..])
  {
    forall i, j | 0 <= i < j < |a| - 1
      ensures a[1..][i] >= a[1..][j]
    {
      assert a[1..][i] == a[i + 1] && a[1..][j] == a[j + 1];
    }
  }

  /** The head of a non-increasing sequence is its largest value, so two such sequences with the same values share their head. */
  lemma SameHead(a: seq<int>, b: seq<int>)
    requires multiset(a) == multiset(b)
    requires NonIncreasing(a) && NonIncreasing(b)
    requires 0 < |a|
    ensures 0 < |b| && a[0] == b[0]
  {
    assert a[0] in multiset(b) && a[0] in b;
    var i :| 0 <= i < |b| && b[i] == a[0];
    assert b[0] in multiset(a) && b[0] in a;
    var j :| 0 <= j < |a| && a[j] == b[0];
    assert b[0] >= b[i] && a[0] >= a[j];
  }

  lemma SameHeadSameTail(a: seq<int>, b: seq<int>)
    requires 0 < |a| && 0 < |b| && a[0] == b[0] && a[1..] == b[1..]
    ensures a == b
  {
    assert a == [a[0]] + a[1..];
    assert b == [b[0]] + b[1..];
  }

  /** Two permutations of each other that share their head are permutations after it. */
  lemma DropHeads<T>(a: seq<T>, b: seq<T>)
    requires multiset(a) == multiset(b)
    requires 0 < |a| && 0 < |b| && a[0] == b[0]
    ensures multiset(a[1..]) == multiset(b[1..])
  {
    RemoveMatching(a, b, 0);
    assert b[..0] + b[1..] == b[1..];
  }

  /** Peeling the shared head off two non-increasing sequences with the same values leaves two such sequences. */
  lemma PeelHead(a: seq<int>, b: seq<int>)
    requires multiset(a) == multiset(b)
    requires NonIncreasing(a) && NonIncreasing(b)
    requires 0 < |a|
    ensures 0 < |b| && a[0] == b[0]
    ensures multiset(a[1..]) == multiset(b[1..])
    ensures NonIncreasing(a[1..]) && NonIncreasing(b[1..])
  {
    SameHead(a, b);
    DropHeads(a, b);
    NonIncreasingTail(a);
    NonIncreasingTail(b);
  }

  /** Two non-increasing sequences holding the same values are equal. */
  lemma {:induction false} NonIncreasingUnique(a: seq<int>, b: seq<int>)
    requires multiset(a) == multiset(b)
    requires NonIncreasing(a) && NonIncreasing(b)
    ensures a == b
    decreases |a|
  {
    if |a| == 0 {
      assert |b| == |multiset(b)| == 0;
    } else {
      PeelHead(a, b);
      NonIncreasingUnique(a[1..], b[1..]);
      SameHeadSameTail(a, b);
    }
  }

  /**
   However a sort breaks ties, every sorted permutation of the same items shows the
   same sequence of scores: only the order among equal scores can differ.
   */
  lemma SortedScoresDetermined(k: SortKey, r1: seq<Item>, r2: seq<Item>)
    requires AllComparable(k, r1) && AllComparable(k, r2)
    requires multiset(r1) == multiset(r2)
    requires SortedBy(k, r1) && SortedBy(k, r2)
    ensures Scores(k, r1) == Scores(k, r2)
  {
    ScoresOfPermutation(k, r1, r2);
    SortedIffScoresNonIncreasing(k, r1);
    SortedIffScoresNonIncreasing(k, r2);
    NonIncreasingUnique(Scores(k, r1), Scores(k, r2));
  }

  predicate StrictlyDecreasing(a: seq<int>) {
    forall i, j :: 0 <= i < j < |a| ==> a[i] > a[j]
  }

  /** When no two items tie, there is exactly one sorted arrangement of them. */
  lemma NoTiesDetermineOrder(k: SortKey, r1: seq<Item>, r2: seq<Item>)
    requires AllComparable(k, r1) && AllComparable(k, r2)
    requires multiset(r1) == multiset(r2)
    requires SortedBy(k, r1) && SortedBy(k, r2)
    requires StrictlyDecreasing(Scores(k, r2))
    ensures r1 == r2
  {
    SortedScoresDetermined(k, r1, r2);
    var a := Scores(k, r2);
    assert |r1| == |Scores(k, r1)| == |a| == |r2|;
    forall i | 0 <= i < |r1|
      ensures r1[i] == r2[i]
    {
      assert r1[i] in multiset(r2);
      var j :| 0 <= j < |r2| && r2[j] == r1[i];
      assert a[j] == Scores(k, r1)[i] == a[i];
    }
  }
}

=== FILE: view.dfy ===
/**
 The view's derivation: copy the item list, drop the items whose level holder is
 `null`, sort the rest with the selected key's comparator, and decide between the
 loading placeholder and the list.
 */
module View {
  import opened Items
  import opened Comparators
  import opened Sorting
  import opened CreatedAsWritten

  /** The filter's test, `item.data !== null`. */
  predicate Shown(x: Item) {
    x.data.Some?
  }

  /** The filter step: keeps the shown items, in their order, each as often as it occurs. */
  function Visible(items: seq<Item>): (r: seq<Item>)
    ensures forall x :: x in r <==> x in items && Shown(x)
    ensures forall x :: multiset(r)[x] == if Shown(x) then multiset(items)[x] else 0
    ensures |r| <= |items|
    decreases |items|
  {
    if |items| == 0 then []
    else
      assert items == [items[0]] + items[1..];
      (if Shown(items[0]) then [items[0]] else []) + Visible(items[1..])
  }

  /** Filtering a feed filters its first item and then the rest. */
  lemma VisibleCons(x: Item, s: seq<Item>)
    ensures Visible([x] + s) == (if Shown(x) then [x] else []) + Visible(s)
  {
    assert ([x] + s)[0] == x && ([x] + s)[1..] == s;
  }

  /** A feed with no `null` level holder is shown whole, in its own order. */
  lemma {:induction false} VisibleKeepsShownFeed(items: seq<Item>)
    requires forall i :: 0 <= i < |items| ==> Shown(items[i])
    ensures Visible(items) == items
    decreases |items|
  {
    if |items| > 0 {
      var x, rest := items[0], items[1..];
      assert forall i :: 0 <= i < |rest| ==> rest[i] == items[i + 1];
      VisibleKeepsShownFeed(rest);
      assert items == [x] + rest;
      VisibleCons(x, rest);
    }
  }

  /** The filtered items are all comparable under every key. */
  lemma VisibleComparable(k: SortKey, items: seq<Item>)
    ensures AllComparable(k, Visible(items))
  {
  }

  /**
   The derived list: the shown items, each as often as in `items`, none other, in
   the order the key's comparator asks for. `items` itself is a value and is left
   as it was, as the source's sort on a spread copy leaves the stored list.
   */
  function SortedItems(items: seq<Item>, k: SortKey): (r: seq<Item>)
    ensures forall x :: x in r <==> x in items && Shown(x)
    ensures forall x :: multiset(r)[x] == if Shown(x) then multiset(items)[x] else 0
    ensures |r| <= |items|
    ensures AllComparable(k, r) && SortedBy(k, r)
  {
    VisibleComparable(k, items);
    InsertionSort(k, Visible(items))
  }

  /** Changing the key reorders the same items: nothing is added, lost or changed. */
  lemma ChangingKeyKeepsItems(items: seq<Item>, k1: SortKey, k2: SortKey)
    ensures multiset(SortedItems(items, k1)) == multiset(SortedItems(items, k2))
  {
  }

  /** Any list a correct sort may produce from the same items shows the same scores in the same order. */
  lemma SortedItemsScoresDetermined(items: seq<Item>, k: SortKey, r: seq<Item>)
    requires AllComparable(k, r) && SortedBy(k, r)
    requires multiset(r) == multiset(Visible(items))
    ensures Scores(k, SortedItems(items, k)) == Scores(k, r)
  {
    var s := SortedItems(items, k);
    assert forall x :: multiset(s)[x] == multiset(Visible(items))[x];
    SortedScoresDetermined(k, s, r);
  }

  /** When no two shown items tie on the key, the derived list is the one sorted arrangement of them. */
  lemma SortedItemsUnique(items: seq<Item>, k: SortKey, e: seq<Item>)
    requires AllComparable(k, e)
    requires multiset(e) == multiset(Visible(items))
    requires StrictlyDecreasing(Scores(k, e))
    ensures SortedItems(items, k) == e
  {
    SortedIffScoresNonIncreasing(k, e);
    var s := SortedItems(items, k);
    assert forall x :: multiset(s)[x] == multiset(Visible(items))[x];
    NoTiesDetermineOrder(k, s, e);
  }

  /** Sorted by kudos: the kudos counts never increase down the list. */
  lemma KudosDescending(items: seq<Item>)
    ensures var r := SortedItems(items, KudosFull);
      forall i, j :: 0 <= i < j < |r| ==> |r[i].kudosFull| >= |r[j].kudosFull|
  {
  }

  /** Every listed item has a level, and the ranks never increase down the list. */
  predicate RanksDescending(r: seq<Item>) {
    forall i, j :: 0 <= i < j < |r| ==> RankedPair(r[i], r[j])
  }

  /** Both items have a level, and the first ranks at least as high as the second. */
  predicate RankedPair(a: Item, b: Item) {
    a.data.Some? && b.data.Some? && Rank(a.data.value.level) >= Rank(b.data.value.level)
  }

  /** Sorted by level: advanced first, then medium, then newbie, then items without a label. */
  lemma LevelDescending(items: seq<Item>)
    ensures RanksDescending(SortedItems(items, DataLevel))
  {
    SortedByLevelRanksDescending(SortedItems(items, DataLevel));
  }

  lemma SortedByLevelRanksDescending(r: seq<Item>)
    requires AllComparable(DataLevel, r) && SortedBy(DataLevel, r)
    ensures RanksDescending(r)
  {
    forall i, j | 0 <= i < j < |r|
      ensures RankedPair(r[i], r[j])
    {
      LevelPair(r, i, j);
    }
  }

  lemma LevelPair(r: seq<Item>, i: nat, j: nat)
    requires AllComparable(DataLevel, r) && SortedBy(DataLevel, r)
    requires i < j < |r|
    ensures RankedPair(r[i], r[j])
  {
    var a, b := r[i], r[j];
    assert a in r && b in r;
    assert Compare(DataLevel, a, b) <= 0;
  }

  /** Sorted by creation: the newest item comes first. */
  lemma CreatedNewestFirst(items: seq<Item>)
    ensures var r := SortedItems(items, Created);
      forall i, j :: 0 <= i < j < |r| ==> Instant(r[i].created) >= Instant(r[j].created)
  {
  }

  /**
   The list the page shows: under `created` the written comparator ties every pair, so
   the engines' stable sorts keep the shown items in their fetched order (ECMAScript
   itself leaves that order implementation-defined); under the other keys it is the
   sorted list.
   */
  function PageItems(items: seq<Item>, k: SortKey): (r: seq<Item>)
    ensures forall x :: multiset(r)[x] == if Shown(x) then multiset(items)[x] else 0
    ensures k.Created? ==> r == Visible(items)
    ensures !k.Created? ==> AllComparable(k, r) && SortedBy(k, r)
  {
    if k.Created? then
      SortAsWrittenKeepsOrder(Visible(items));
      SortAsWritten(Visible(items))
    else SortedItems(items, k)
  }

  /**
   The `items` state: an array, or a falsy value (`null`, `false`, `0` or `""`) when
   the loaded JSON body was one.
   */
  datatype ItemList = Falsy | Array(elems: seq<Item>)

  /** The state the view starts in: an empty array. */
  const InitialItems: ItemList := Array([])

  /** JavaScript truthiness of the state: every array, even an empty one, is truthy. */
  predicate Truthy(v: ItemList) {
    v.Array?
  }

  /** What the view shows. */
  datatype Screen = Loading | Ready(sortBy: SortKey, rows: seq<Item>)

  /**
   One render: `sortedItems` is the page's list when `items` is truthy and `[]`
   otherwise, and the placeholder is shown when `sortedItems` is falsy. Both branches
   yield an array, so the placeholder is never shown.
   */
  function Render(items: ItemList, k: SortKey): (r: Screen)
    ensures r.Ready? && r.sortBy == k
    ensures items.Falsy? ==> r.rows == []
    ensures items.Array? ==> r.rows == PageItems(items.elems, k)
  {
    var sortedItems := if Truthy(items) then PageItems(items.elems, k) else [];
    if !Truthy(Array(sortedItems)) then Loading else Ready(k, sortedItems)
  }

  /** Before anything is loaded the view already shows an empty list under the default key. */
  lemma InitialRenderIsEmptyList()
    ensures Render(InitialItems, DefaultSortKey) == Ready(Created, [])
  {
  }
}

=== FILE: wrappers.dfy ===
/** Optional values: `None` stands for JavaScript's `null` or `undefined` where the feed code reads one. */
module Wrappers {

  datatype Option<+T> = None | Some(value: T)
}
